=== FILE: README.md ===
# Govee BLE light command codec, in Dafny

This project models the command path of the Home Assistant integration for
Govee Bluetooth lights (`custom_components/govee_ble_lights/coordinator.py`).
A lighting command is a dictionary that may hold any of these keys:
- a mode key: `scene`, `music`, `video`, `color` or `temp`;
- `mask` and `extra`;
- `brightness` and `on_off`.

The coordinator turns such a command into at most three 20-byte frames:
1. a mode frame, with command id 0x05;
2. a brightness frame, with command id 0x04;
3. a power frame, with command id 0x01.

It writes them over a Bluetooth connection and records whether everything
worked.

A frame is the magic byte 0x33, the command id, a payload of at most 17
bytes, zero padding up to 19 bytes, and a checksum byte. The checksum is the
XOR of the 19 bytes before it.

The modules follow the code:

| module | models |
|---|---|
| `Wrappers` | `Option` and `Result` |
| `FrameCodec` | `_prepare_payload`: the frame encoder, its checksum loop, and a decoder used as the encoder's partner |
| `SegmentMask` | `_prepare_mask_bytes`: packing a segment-mask string into three bytes |
| `Commands` | the command dictionary, with each optional key as an `Option`, and the host's colour-temperature helpers as uninterpreted functions |
| `Payloads` | `_prepare_color_req`, `_prepare_music_req` and `_prepare_video_req` |
| `Dispatch` | how `async_exec_cmds` chooses and orders the frames |
| `Executor` | the transport calls of `async_exec_cmds`: connect, subscribe, write each frame, disconnect; then the success flag and the single publication of the device data |
| `CapturedFrames` | seven of the frames listed in the source's closing docstring (lines 223, 225, 232, 233, 242, 243 and 249), reproduced byte for byte; the temperature frame only under a conversion chosen to give its colour |

Payloads are lists of unbounded integers, as in Python. A value outside
0..255 makes `bytes()` raise, and the encoder models that as an error.

The model uses these abstractions:
- The scene table `H7020` is a parameter `scenes: map<string, int>`. `scenes.py` is not part of this model.
- The host's conversions from mireds to kelvin and from kelvin to RGB are parameters.
- The Bluetooth transport is a parameter `ok: nat -> bool`, which says whether the transport's n-th call succeeds. Connect is call 0, subscribe is call 1, the i-th write is call 2 + i, and disconnect comes after the last write.

`async_exec_cmds` (coordinator.py:95-133) behaves as follows, and so does the model:
- Subscribing to notifications is part of the `try`. A failure there raises, so nothing is written.
- Disconnect is the last statement of the `try`, not a `finally`. After a failed write, or a frame that fails to build, the session ends without disconnecting.
- A failed disconnect raises, so the result is failure.
- Brightness is sent as given, not scaled from a percentage.
- Frames are built one at a time, after connecting and subscribing. A frame that fails to build (unknown scene, unknown music mode, payload too long, value out of byte range) therefore ends the run after the frames before it were written.
- `cmd_success` is set once, and the device data is published once, after the `try`.

The colour payload comes in two layouts, chosen by a parameter
`order: KelvinOrder` of `ModeStep`, `Plan` and `ExecCmds`. With `LowFirst`
they build the kelvin bytes low byte first, as line 199 does, so they model
the program as written. With `HighFirst` they build the order the captured
frames show (see "## Findings"). Without `temp` the two layouts coincide.

## Model

| member | source | states |
|---|---|---|
| FrameCodec.Encode | custom_components/govee_ble_lights/coordinator.py:137-154 | Encoding succeeds exactly when the payload has at most 17 entries, all in 0..255. Too long is the "Payload too long" error. The frame is 20 bytes: 0x33, `cmd & 0xFF`, the payload bytes, zeros up to byte 18, then a checksum equal to the XOR of bytes 0..18 |
| FrameCodec.Checksum | custom_components/govee_ble_lights/coordinator.py:148-153 | The XOR loop's result makes the whole frame XOR to zero, and no other final byte does |
| FrameCodec.EncodedFrameXorsToZero | custom_components/govee_ble_lights/coordinator.py:148-153 | Every encoded frame XORs to zero over all 20 bytes |
| FrameCodec.DecodeEncode | custom_components/govee_ble_lights/coordinator.py:137-154 | Decoding an encoded frame gives back `cmd & 0xFF` and the payload followed by its zero padding |
| FrameCodec.EncodeDecode | custom_components/govee_ble_lights/coordinator.py:137-154 | Every frame with the magic byte and a zero XOR is the encoding of the command id and 17-byte area it decodes to |
| FrameCodec.EncodingIsDetermined | custom_components/govee_ble_lights/coordinator.py:144-153 | A 20-byte frame whose header, payload bytes and padding match and which XORs to zero is the encoder's output: the checksum leaves no other last byte |
| SegmentMask.PackMask | custom_components/govee_ble_lights/coordinator.py:190-192 | The packed mask is below 2^len. Its bit i is 1 exactly when the i-th character from the right is one of `1 x X + #` |
| SegmentMask.ScanBits | custom_components/govee_ble_lights/coordinator.py:190-192 | The scanned value has the mask's on/off characters as binary digits, last character lowest, and no bits beyond the mask's length |
| SegmentMask.ScanAppend | custom_components/govee_ble_lights/coordinator.py:191-192 | Scanning `a + b` gives `a`'s value shifted left by `len(b)` plus `b`'s value |
| SegmentMask.LowBytesValue | custom_components/govee_ble_lights/coordinator.py:193 | `[v & 0xff, (v >> 8) & 0xff, (v >> 16) & 0xff]` read back little-endian is `v` modulo 2^24 |
| SegmentMask.LowBytesIgnoreHigh | custom_components/govee_ble_lights/coordinator.py:193 | Bits above the 24th do not change the three bytes |
| SegmentMask.MaskBytes | custom_components/govee_ble_lights/coordinator.py:187-193 | No mask gives `ff ff ff`. Otherwise there are three bytes in 0..255 that read little-endian to the scanned value modulo 2^24 |
| SegmentMask.AbsentAndEmptyMasks | custom_components/govee_ble_lights/coordinator.py:188-193 | An absent mask selects every segment; an empty mask string selects none |
| SegmentMask.LastSegmentsDecide | custom_components/govee_ble_lights/coordinator.py:190-193 | For a mask longer than 24 characters, only its last 24 characters affect the bytes |
| SegmentMask.MaskExample | custom_components/govee_ble_lights/coordinator.py:190-193 | The mask "1100" gives the bytes `0c 00 00` |
| Payloads.TwoBytesValue | custom_components/govee_ble_lights/coordinator.py:199 | `x & 0xff` plus 256 times `(x >> 8) & 0xff` is `x` modulo 2^16, for any integer, negative included |
| Payloads.ColorPayloadAsWritten | custom_components/govee_ble_lights/coordinator.py:186-204 | The colour payload as the code writes it: 13 entries, starting `15 01` and ending with the mask bytes. With `temp`: three zeros, then the kelvin low byte first (`r[5] + 256*r[6]` is the kelvin modulo 2^16), then the converted colour. Otherwise: the colour, then five zeros |
| Payloads.ColorPayload | custom_components/govee_ble_lights/coordinator.py:194-204 | The same layout with the kelvin high byte first (`256*r[5] + r[6]` is the kelvin modulo 2^16), the order the captured frames show; the dispatch uses it when `order = HighFirst` |
| Payloads.OrderIrrelevantWithoutTemp | custom_components/govee_ble_lights/coordinator.py:200-204 | Without `temp`, the two layouts give the same payload, so the choice of order only matters for colour temperature |
| Payloads.TempOverridesColor | custom_components/govee_ble_lights/coordinator.py:195-202 | When `temp` is given, the `color` key has no effect on either layout |
| Payloads.KelvinOrderMatters | custom_components/govee_ble_lights/coordinator.py:199 | The two layouts agree exactly when the kelvin's two bytes are equal |
| Payloads.MusicModesDistinct | custom_components/govee_ble_lights/coordinator.py:171-177 | The four effect names map to distinct mode bytes, and those bytes are 3, 4, 5 and 6 |
| Payloads.MusicPayload | custom_components/govee_ble_lights/coordinator.py:170-184 | The payload exists exactly when the effect name is in the table; otherwise it is the unknown-mode error. It is `13`, the mode byte, the sensitivity (default 100) and the calm flag, followed by `01 r g b` when a colour is given (8 entries, otherwise 4) |
| Payloads.MusicDefaults | custom_components/govee_ble_lights/coordinator.py:178-180 | Without `extra`, music runs at sensitivity 100 in calm mode |
| Payloads.MusicCalmFlag | custom_components/govee_ble_lights/coordinator.py:179-180 | The calm byte is 0 exactly when `extra.mode` is given and is not "calm" |
| Payloads.Zones | custom_components/govee_ble_lights/coordinator.py:164-166 | The zone brightness has four entries: the given list when it has exactly four entries, otherwise the default `[100, 100, 100, 100]` |
| Payloads.ZonesNeedExactlyFour | custom_components/govee_ble_lights/coordinator.py:164-166 | A zone list whose length is not four is ignored as if absent |
| Payloads.VideoPayload | custom_components/govee_ble_lights/coordinator.py:156-168 | An 11-entry payload. Byte 1 is 1 exactly for region "all", byte 2 exactly for game mode, and byte 4 exactly when `sound_effect` is true. Then come the sensitivity (default 100) and the four zone values, with zeros at bytes 0, 3 and 6 |
| Payloads.VideoDefaults | custom_components/govee_ble_lights/coordinator.py:158-167 | Without `extra`: no game mode, no sound, sensitivity 100, every zone at 100 |
| Payloads.ModePayloadsFit | custom_components/govee_ble_lights/coordinator.py:138 | No colour payload, in either kelvin order, and no music or video payload exceeds the 17-byte limit |
| Dispatch.Build | custom_components/govee_ble_lights/coordinator.py:109-126 | A frame is built exactly when the payload fits and is all bytes; any other failure is an encoding error. A built frame is well formed, carries the command id and decodes to the zero-padded payload |
| Dispatch.ModeStep | custom_components/govee_ble_lights/coordinator.py:105-120 | There is at most one mode step, and a built mode frame is well formed with command id 0x05. With `order = LowFirst` the colour branch uses the payload as written at line 199 |
| Dispatch.Plan | custom_components/govee_ble_lights/coordinator.py:105-126 | A command yields at most three steps. Every built frame is well formed, and built frames come in strictly decreasing command-id order (mode, brightness, power), so no kind repeats |
| Dispatch.ModePrecedence | custom_components/govee_ble_lights/coordinator.py:105-120 | `scene` hides music, video, colour, temperature and mask. `music` hides video, temperature and mask. `video` hides colour, temperature and mask |
| Dispatch.MusicModeFrame | custom_components/govee_ble_lights/coordinator.py:112-114 | With `music` and no `scene`: an unknown effect name gives the single step `UnknownMusicMode`; otherwise there is one step, built exactly when the music payload fits and is all bytes, and it decodes to command 0x05 with that payload, zero-padded |
| Dispatch.VideoModeFrame | custom_components/govee_ble_lights/coordinator.py:115-117 | With `video` and no `scene` or `music`: one step, built exactly when the video payload is all bytes, decoding to command 0x05 with that payload, zero-padded |
| Dispatch.ColorModeFrame | custom_components/govee_ble_lights/coordinator.py:118-120 | With `color` or `temp` and no earlier mode key: one step carrying the colour payload, in the layout as written for `LowFirst` and the corrected layout for `HighFirst` |
| Dispatch.NoModeKey | custom_components/govee_ble_lights/coordinator.py:105-120 | With none of the five mode keys there is no mode step |
| Dispatch.SceneBytes | custom_components/govee_ble_lights/coordinator.py:109 | The scene payload is `04`, the code's low byte and its second byte, all in byte range for any code |
| Dispatch.SceneFrame | custom_components/govee_ble_lights/coordinator.py:105-109 | A known scene with a non-negative code gives one mode frame, `04 lo hi` padded, and the code modulo 2^16 can be read back from it |
| Dispatch.UnknownSceneFails | custom_components/govee_ble_lights/coordinator.py:106-107 | A scene name missing from the table is an error at the first step (the missing code is compared with 0, which raises) |
| Dispatch.NegativeSceneSkipsMode | custom_components/govee_ble_lights/coordinator.py:107-111 | A known negative scene code sends no mode frame but still sends brightness and power, as if no mode key were given |
| Dispatch.PlanIds | custom_components/govee_ble_lights/coordinator.py:105-126 | Each built frame's command id is determined by its position: mode steps first, then brightness, then power |
| Dispatch.PowerFrame | custom_components/govee_ble_lights/coordinator.py:124-126 | There is a power frame exactly when `on_off` is given. It is the last step and carries 1 for on, 0 for off |
| Dispatch.BrightnessFrame | custom_components/govee_ble_lights/coordinator.py:121-123 | There is a brightness frame exactly when `brightness` is given as a byte, and it carries that value unscaled |
| Dispatch.ModeFrame | custom_components/govee_ble_lights/coordinator.py:105-120 | There is a mode frame exactly when the mode step built one |
| Executor.ScriptPrefix | custom_components/govee_ble_lights/coordinator.py:99-127 | After the first i frames are written, the calls made are a prefix of the full call sequence. If frame i fails to build, they are the whole sequence: no disconnect follows |
| Executor.SendPlan | custom_components/govee_ble_lights/coordinator.py:95-132 | The calls are connect, subscribe, the writes and disconnect, cut after the first failing call; a call is made only if every earlier call succeeded. Success holds exactly when every frame builds and every call succeeds, disconnect included |
| Executor.ExecCmds | custom_components/govee_ble_lights/coordinator.py:88-133 | The same about the command's plan, for either kelvin order (`LowFirst` is the program as written). The device data is published exactly once, last, with `cmd_success` set to the result |
| CapturedFrames.Scene41Encodes | custom_components/govee_ble_lights/coordinator.py:232 | The payload `04 41 00` encodes to the captured frame ending in checksum 0x73 |
| CapturedFrames.SceneCapture | custom_components/govee_ble_lights/coordinator.py:232 | Scene code 0x0041 gives the captured frame `33 05 04 41 00 ... 73` |
| CapturedFrames.SceneBB1Encodes | custom_components/govee_ble_lights/coordinator.py:233 | The payload `04 b1 0b` encodes to the captured frame ending in checksum 0x88 |
| CapturedFrames.SecondSceneCapture | custom_components/govee_ble_lights/coordinator.py:233 | Scene code 0x0bb1 gives the captured frame `33 05 04 b1 0b ... 88` |
| CapturedFrames.PowerOffCapture | custom_components/govee_ble_lights/coordinator.py:243 | `on_off` false gives the captured frame `33 01 00 ... 32` |
| CapturedFrames.EnergeticPayload | custom_components/govee_ble_lights/coordinator.py:249 | Energetic music at sensitivity 0x63, not calm, in red, has the payload `13 05 63 00 01 ff 00 00` |
| CapturedFrames.EnergeticEncodes | custom_components/govee_ble_lights/coordinator.py:249 | That payload encodes to the captured frame ending in checksum 0xbd |
| CapturedFrames.MusicCapture | custom_components/govee_ble_lights/coordinator.py:249 | The command gives the captured music frame |
| CapturedFrames.BluePayload | custom_components/govee_ble_lights/coordinator.py:223 | Blue with no mask has the payload `15 01 00 00 ff 00 00 00 00 00 ff ff ff` |
| CapturedFrames.BlueEncodes | custom_components/govee_ble_lights/coordinator.py:223 | That payload encodes to the captured frame ending in checksum 0x22 |
| CapturedFrames.BlueColorCapture | custom_components/govee_ble_lights/coordinator.py:223 | The command gives the captured blue frame |
| CapturedFrames.DarkPayload | custom_components/govee_ble_lights/coordinator.py:242 | Black with every masked segment off has an all-zero payload after `15 01` |
| CapturedFrames.DarkEncodes | custom_components/govee_ble_lights/coordinator.py:242 | That payload encodes to the captured frame ending in checksum 0x22 |
| CapturedFrames.DarkColorCapture | custom_components/govee_ble_lights/coordinator.py:242 | The command gives the captured frame `33 05 15 01 00 ... 22` |
| CapturedFrames.WarmPayload | custom_components/govee_ble_lights/coordinator.py:225 | Under a conversion chosen to match the capture (500 mireds is 2000 K, and 2000 K is the colour `ff 8d 0b`), the corrected layout is `... 00 00 00 07 d0 ff 8d 0b ff ff ff` |
| CapturedFrames.WarmEncodes | custom_components/govee_ble_lights/coordinator.py:225 | That payload encodes to the captured frame ending in checksum 0x73 |
| CapturedFrames.TemperatureCapture | custom_components/govee_ble_lights/coordinator.py:225 | With the kelvin high byte first and under that assumed conversion, the temperature command gives the captured frame. The host's own conversion may give a different colour, and then no layout reproduces it |
| CapturedFrames.WrittenKelvinBytes | custom_components/govee_ble_lights/coordinator.py:199 | The code as written puts `d0 07` where the capture has `07 d0` |
| CapturedFrames.TemperatureAsWrittenDiffers | custom_components/govee_ble_lights/coordinator.py:199 | The mode frame that `ModeStep` builds with `order = LowFirst` (the code as written) for 2000 K is not the captured frame |

## Left out

- The Bluetooth transport is an abstract success pattern. This covers `BleakClient`, the GATT characteristic UUIDs, `start_notify` and `write_gatt_char`, and the notify and disconnect callbacks, which only log.
- Device lookup (`async_ble_device_from_address` on `address.upper()`) is a parameter `resolved`. `_discover`, `_connect`, `_on_disconnected` and `_on_notify` are not modelled: `async_exec_cmds` never calls them, and it registers its own local callbacks instead (lines 98 and 101), which only log.
- `BaseEntity`, the `DeviceCoordinator` constructor and `async_update_data` are Home Assistant glue. So are `__init__.py`, `binary_sensor.py` and `config_flow.py`.
- Asynchrony and concurrency are not modelled. One run is one sequential list of calls.
- Logging is not modelled.
- The colour-temperature conversions are floating-point host functions. They are uninterpreted `int -> int` and `int -> Rgb` functions.
- Commands.Rgb: colour components are integers, so `int()` of a float and a colour list shorter than three are not modelled.
- Commands.Extra: `sound_effect` is a boolean, so Python's `1 == True` is not modelled. An `extra` present with a non-dictionary value is not modelled.
- Payloads.MusicPayload: an unknown effect name is reported when the payload is built. In the source the list holds `None`, and `bytes()` then raises inside the encoder. Either way the frame is not sent and the run fails at that step.
- Commands.Cmds: each key is either absent or holds a value of the expected type. A key present with `None` or a value of another type is treated like an absent key, while the source raises or behaves differently. For example, `{"scene": None, "on_off": True}` makes line 107 compare `None` with 0 and raise, so no power frame is sent and `cmd_success` is False. `"color": None` raises at line 202, and `"brightness": None` raises in `bytes()`. `on_off` is a boolean, so Python truthiness is not modelled: the string "off" would send 0x01.
- The closing docstring also lists frames that this code never builds. Lines 218-220 carry `ff ff ff` where the temperature layout writes `00 00 00` (line 196). Line 244 has command id 0x09, which no operation here sends. Line 270 has the colour flag `00` followed by a colour, while line 183 always writes `01` before a colour. These frames are not modelled.
- Payloads.VideoPayload: the captured video frames show 0x32 at payload byte 3, where the code writes 0x00. The model follows the code, since the source marks that field as unknown.

## Findings

| source | as written | input that shows it | evidently intended | confidence | as-written member | corrected member |
|---|---|---|---|---|---|---|
| custom_components/govee_ble_lights/coordinator.py:199 | the kelvin goes out low byte first: `color_k & 0xff, (color_k >> 8) & 0xff` | `temp` = 500 mireds, i.e. 2000 K = 0x07d0: the code sends `d0 07`, while the captured frames carry `07 d0` at lines 218 and 225, `22 c4` at 219 and 227, `14 b4` at 220, `0c 80` at 228 and `1e dc` at 229, each followed by a fitting colour | high byte first, as in the captures | medium; not executed | CapturedFrames.TemperatureAsWrittenDiffers (on Payloads.ColorPayloadAsWritten and Dispatch.ModeStep with `LowFirst`) | Payloads.ColorPayload, used by Dispatch.ModeStep with `order = HighFirst`, with CapturedFrames.TemperatureCapture; Dispatch.ModeStep with `order = LowFirst` is the program as written |

=== FILE: captured_frames.dfy ===
/** Seven of the frames listed in the coordinator's closing docstring (lines
    223, 225, 232, 233, 242, 243 and 249), reproduced by the model byte for
    byte (the temperature frame under an assumed conversion). Each capture is proved
    in three steps: the payload the model builds, the frame that payload
    encodes to, and the dispatch step that puts the two together. */
module CapturedFrames {
  import opened Wrappers
  import opened FrameCodec
  import opened Commands
  import opened Payloads
  import opened Dispatch

  const NoCmds := Cmds(None, None, None, None, None, None, NoExtra, None, None)

  /** A conversion that is never consulted (no colour temperature requested). */
  const AnyConv := TempConversion(m => 0, k => Rgb(0, 0, 0))

  /** A frame literal is what `Build` produces once its header, payload bytes,
      padding and checksum are checked. */
  lemma Builds(cmd: bv8, p: seq<int>, f: Frame)
    requires |p| <= MaxPayload && AllBytes(p)
    requires |f| == FrameSize && f[0] == Magic && f[1] == cmd
    requires forall i :: 0 <= i < |p| ==> f[2 + i] as int == p[i]
    requires forall i :: 2 + |p| <= i < BodySize ==> f[i] == 0
    requires XorAll(f) == 0
    ensures Build(cmd, p) == Ok(f)
  {
    BitVectorRoundTrip(cmd);
    EncodingIsDetermined(cmd as int, p, f);
  }

  // ----- scenes -----

  const Scene41Bytes: seq<int> := [0x04, 0x41, 0x00]

  /** `33 05 04 41 00 ... 73`: scene code 0x0041. */
  const Scene41Frame: Frame := [0x33, 0x05, 0x04, 0x41, 0x00, 0, 0, 0, 0, 0, 0, 0, 0, 0, 0, 0, 0, 0, 0, 0x73]

  lemma Scene41Encodes()
    ensures Build(ModeCommand, Scene41Bytes) == Ok(Scene41Frame)
  {
    XorOfTwenty(Scene41Frame);
    Builds(ModeCommand, Scene41Bytes, Scene41Frame);
  }

  lemma SceneCapture(order: KelvinOrder)
    ensures ModeStep(NoCmds.(scene := Some("scene")), map["scene" := 0x41], AnyConv, order) == [Ok(Scene41Frame)]
  {
    assert 0x41 % 256 == 0x41 && 0x41 / 256 == 0;
    assert ScenePayload(0x41) == Scene41Bytes;
    Scene41Encodes();
  }

  const SceneBB1Bytes: seq<int> := [0x04, 0xb1, 0x0b]

  /** `33 05 04 b1 0b ... 88`: scene code 0x0bb1. */
  const SceneBB1Frame: Frame := [0x33, 0x05, 0x04, 0xb1, 0x0b, 0, 0, 0, 0, 0, 0, 0, 0, 0, 0, 0, 0, 0, 0, 0x88]

  lemma SceneBB1Encodes()
    ensures Build(ModeCommand, SceneBB1Bytes) == Ok(SceneBB1Frame)
  {
    XorOfTwenty(SceneBB1Frame);
    Builds(ModeCommand, SceneBB1Bytes, SceneBB1Frame);
  }

  lemma SecondSceneCapture(order: KelvinOrder)
    ensures ModeStep(NoCmds.(scene := Some("scene")), map["scene" := 0x0bb1], AnyConv, order) == [Ok(SceneBB1Frame)]
  {
    assert 0x0bb1 % 256 == 0xb1 && 0x0bb1 / 256 == 0x0b;
    assert ScenePayload(0x0bb1) == SceneBB1Bytes;
    SceneBB1Encodes();
  }

  // ----- power -----

  /** `33 01 00 ... 32`: power off. */
  const PowerOffFrame: Frame := [0x33, 0x01, 0, 0, 0, 0, 0, 0, 0, 0, 0, 0, 0, 0, 0, 0, 0, 0, 0, 0x32]

  lemma PowerOffCapture()
    ensures PowerStep(NoCmds.(onOff := Some(false))) == [Ok(PowerOffFrame)]
  {
    XorOfTwenty(PowerOffFrame);
    Builds(PowerCommand, [0x00], PowerOffFrame);
  }

  // ----- music -----

  /** Energetic music at sensitivity 0x63, not calm, in red. */
  const Energetic := NoCmds.(music := Some("energetic"), color := Some(Rgb(0xff, 0, 0)),
                             extra := NoExtra.(mode := Some("dynamic"), sensivity := Some(0x63)))

  const EnergeticBytes: seq<int> := [0x13, 0x05, 0x63, 0x00, 0x01, 0xff, 0x00, 0x00]

  /** `33 05 13 05 63 00 01 ff 00 00 ... bd`. */
  const EnergeticFrame: Frame :=
    [0x33, 0x05, 0x13, 0x05, 0x63, 0x00, 0x01, 0xff, 0x00, 0x00, 0, 0, 0, 0, 0, 0, 0, 0, 0, 0xbd]

  lemma EnergeticPayload()
    ensures MusicPayload(Energetic) == Ok(EnergeticBytes)
  {
    assert MusicModes["energetic"] == 0x05;
    assert "dynamic" != "calm" by {
      assert "dynamic"[0] != "calm"[0];
    }
    var v := MusicPayload(Energetic).value;
    assert v[..4] == EnergeticBytes[..4];
    assert v[4..] == EnergeticBytes[4..];
    assert v == v[..4] + v[4..];
    assert EnergeticBytes == EnergeticBytes[..4] + EnergeticBytes[4..];
  }

  lemma EnergeticEncodes()
    ensures Build(ModeCommand, EnergeticBytes) == Ok(EnergeticFrame)
  {
    XorOfTwenty(EnergeticFrame);
    Builds(ModeCommand, EnergeticBytes, EnergeticFrame);
  }

  lemma MusicCapture(order: KelvinOrder)
    ensures ModeStep(Energetic, map[], AnyConv, order) == [Ok(EnergeticFrame)]
  {
    EnergeticPayload();
    EnergeticEncodes();
  }

  // ----- static colour -----

  const Blue := NoCmds.(color := Some(Rgb(0, 0, 0xff)))

  const BlueBytes: seq<int> := [0x15, 0x01, 0x00, 0x00, 0xff, 0, 0, 0, 0, 0, 0xff, 0xff, 0xff]

  /** `33 05 15 01 00 00 ff 00 00 00 00 00 ff ff ff 00 00 00 00 22`: blue, every segment. */
  const BlueFrame: Frame := [0x33, 0x05, 0x15, 0x01, 0x00, 0x00, 0xff, 0, 0, 0, 0, 0, 0xff, 0xff, 0xff, 0, 0, 0, 0, 0x22]

  lemma BluePayload()
    ensures ColorPayload(Blue, AnyConv) == BlueBytes
  {
    var r := ColorPayload(Blue, AnyConv);
    assert r[2..10] == [0x00, 0x00, 0xff, 0, 0, 0, 0, 0];
    assert r == r[..2] + r[2..10] + r[10..];
  }

  lemma BlueEncodes()
    ensures Build(ModeCommand, BlueBytes) == Ok(BlueFrame)
  {
    XorOfTwenty(BlueFrame);
    Builds(ModeCommand, BlueBytes, BlueFrame);
  }

  lemma BlueColorCapture(order: KelvinOrder)
    ensures ModeStep(Blue, map[], AnyConv, order) == [Ok(BlueFrame)]
  {
    BluePayload();
    OrderIrrelevantWithoutTemp(Blue, AnyConv);
    BlueEncodes();
  }

  /** Black with the only segment of a one-character mask switched off. */
  const Dark := NoCmds.(color := Some(Rgb(0, 0, 0)), mask := Some("0"))

  const DarkBytes: seq<int> := [0x15, 0x01, 0, 0, 0, 0, 0, 0, 0, 0, 0, 0, 0]

  /** `33 05 15 01 00 ... 22`. */
  const DarkFrame: Frame := [0x33, 0x05, 0x15, 0x01, 0, 0, 0, 0, 0, 0, 0, 0, 0, 0, 0, 0, 0, 0, 0, 0x22]

  lemma DarkPayload()
    ensures ColorPayload(Dark, AnyConv) == DarkBytes
  {
    assert SegmentMask.ScanValue("0") == 0 by {
      assert "0"[..0] == "";
    }
    var r := ColorPayload(Dark, AnyConv);
    assert r[2..10] == [0, 0, 0, 0, 0, 0, 0, 0];
    assert r[10..] == [0, 0, 0];
    assert r == r[..2] + r[2..10] + r[10..];
  }

  lemma DarkEncodes()
    ensures Build(ModeCommand, DarkBytes) == Ok(DarkFrame)
  {
    XorOfTwenty(DarkFrame);
    Builds(ModeCommand, DarkBytes, DarkFrame);
  }

  lemma DarkColorCapture(order: KelvinOrder)
    ensures ModeStep(Dark, map[], AnyConv, order) == [Ok(DarkFrame)]
  {
    DarkPayload();
    OrderIrrelevantWithoutTemp(Dark, AnyConv);
    DarkEncodes();
  }

  // ----- colour temperature -----

  /** A conversion chosen to give the captured colour: 500 mireds is 2000 K,
      and 2000 K is the colour ff 8d 0b. The host's own conversion may give a
      different colour, so the temperature capture holds under this assumption only. */
  const WarmConv := TempConversion(m => if m == 500 then 2000 else 0,
                                   k => if k == 2000 then Rgb(0xff, 0x8d, 0x0b) else Rgb(0, 0, 0))

  const Warm := NoCmds.(temp := Some(500))

  const WarmBytes: seq<int> := [0x15, 0x01, 0x00, 0x00, 0x00, 0x07, 0xd0, 0xff, 0x8d, 0x0b, 0xff, 0xff, 0xff]

  /** `33 05 15 01 00 00 00 07 d0 ff 8d 0b ff ff ff 00 00 00 00 73`: 2000 K on every segment. */
  const WarmFrame: Frame :=
    [0x33, 0x05, 0x15, 0x01, 0x00, 0x00, 0x00, 0x07, 0xd0, 0xff, 0x8d, 0x0b, 0xff, 0xff, 0xff, 0, 0, 0, 0, 0x73]

  lemma WarmPayload()
    ensures ColorPayload(Warm, WarmConv) == WarmBytes
  {
    var r := ColorPayload(Warm, WarmConv);
    assert KelvinOf(Warm, WarmConv) == 2000;
    assert r[5] == 0x07 && r[6] == 0xd0;
    assert r == r[..2] + r[2..5] + r[5..7] + r[7..10] + r[10..];
  }

  lemma WarmEncodes()
    ensures Build(ModeCommand, WarmBytes) == Ok(WarmFrame)
  {
    XorOfTwenty(WarmFrame);
    Builds(ModeCommand, WarmBytes, WarmFrame);
  }

  /** With the kelvin high byte first the model reproduces the captured frame. */
  lemma TemperatureCapture()
    ensures ModeStep(Warm, map[], WarmConv, HighFirst) == [Ok(WarmFrame)]
  {
    WarmPayload();
    WarmEncodes();
  }

  lemma WrittenKelvinBytes()
    ensures ColorPayloadAsWritten(Warm, WarmConv)[5..7] == [0xd0, 0x07]
  {
    var p := ColorPayloadAsWritten(Warm, WarmConv);
    assert KelvinOf(Warm, WarmConv) == 2000;
    assert p[5] == 0xd0 && p[6] == 0x07;
  }

  lemma WrittenPayloadIsBytes()
    ensures AllBytes(ColorPayloadAsWritten(Warm, WarmConv))
  {
    var p := ColorPayloadAsWritten(Warm, WarmConv);
    assert KelvinOf(Warm, WarmConv) == 2000;
    assert p == p[..5] + p[5..7] + p[7..10] + p[10..];
    assert AllBytes(p[..5]) && AllBytes(p[5..7]) && AllBytes(p[7..10]) && AllBytes(p[10..]);
  }

  /** Byte 7 of a built mode frame is payload entry 5. */
  lemma FrameByteSeven(p: seq<int>)
    requires 6 <= |p| <= MaxPayload && AllBytes(p)
    ensures Build(ModeCommand, p).Ok? && Build(ModeCommand, p).value[7] as int == p[5]
  {
    var f := Build(ModeCommand, p).value;
    var area := Decode(f).value.area;
    assert f[7] == area[5];
  }

  /** The program as written puts d0 07 where the capture has 07 d0, so the
      mode frame it sends for 2000 K is not the captured one. */
  lemma TemperatureAsWrittenDiffers()
    ensures ColorPayloadAsWritten(Warm, WarmConv)[5..7] == [0xd0, 0x07]
    ensures
      var r := ModeStep(Warm, map[], WarmConv, LowFirst);
      |r| == 1 && r[0].Ok? && r[0].value != WarmFrame
  {
    var p := ColorPayloadAsWritten(Warm, WarmConv);
    WrittenKelvinBytes();
    WrittenPayloadIsBytes();
    FrameByteSeven(p);
    assert ModeStep(Warm, map[], WarmConv, LowFirst) == [Build(ModeCommand, p)];
    assert WarmFrame[7] == 0x07;
  }
}

=== FILE: commands.dfy ===
/** The command dictionary handed to the device coordinator, with each key
    that may be missing as an `Option`, and the colour-temperature conversion
    it relies on. */
module Commands {
  import opened Wrappers

  /** A colour as three integer channels, after `int(...)` of each component. */
  datatype Rgb = Rgb(r: int, g: int, b: int)

  /** The optional `extra` dictionary. An absent `extra` is `NoExtra`. */
  datatype Extra = Extra(
    mode: Option<string>,            // "calm"/other for music, "game"/other for video
    soundEffect: Option<bool>,       // video: react to sound
    sensivity: Option<int>,          // music and video sensitivity (key spelled as in the service)
    tvBrightness: Option<seq<int>>)  // video: per-zone brightness

  const NoExtra := Extra(None, None, None, None)

  /** One service call's data: the mode keys in precedence order, the colour
      and mask, the extra settings, and the brightness and power keys. */
  datatype Cmds = Cmds(
    scene: Option<string>,
    music: Option<string>,
    video: Option<string>,
    color: Option<Rgb>,
    temp: Option<int>,               // colour temperature in mireds
    mask: Option<string>,
    extra: Extra,
    brightness: Option<int>,
    onOff: Option<bool>)

  /** The host's colour-temperature helpers, left uninterpreted: mireds to an
      integer kelvin, and kelvin to an integer colour. */
  datatype TempConversion = TempConversion(miredToKelvin: int -> int, kelvinToRgb: int -> Rgb)
}

=== FILE: dispatch.dfy ===
/** Which frames one command produces and in what order: at most one mode
    frame (scene, else music, else video, else colour/temperature), then the
    brightness frame, then the power frame. Each step is the frame or the
    error that building it raises. */
module Dispatch {
  import opened Wrappers
  import opened FrameCodec
  import opened Commands
  import opened Payloads

  const PowerCommand: bv8 := 0x01
  const BrightnessCommand: bv8 := 0x04
  const ModeCommand: bv8 := 0x05
  /** First payload byte of a scene mode frame. */
  const SceneOpcode := 0x04

  type Step = Result<Frame, BuildError>

  /** Encode a frame, wrapping an encoder error as a build error. A built
      frame decodes to its command id and its zero-padded payload. */
  function Build(cmd: bv8, payload: seq<int>): (r: Step)
    ensures r.Ok? <==> |payload| <= MaxPayload && AllBytes(payload)
    ensures r.Err? ==> r.error.Encoding?
    ensures r.Ok? ==>
      && WellFormed(r.value)
      && r.value[1] == cmd
      && Decode(r.value) == Some(Decoded(cmd, ToBytes(payload) + Zeros(MaxPayload - |payload|)))
  {
    match Encode(cmd as int, payload)
    case Ok(f) =>
      DecodeEncode(cmd as int, payload);
      BitVectorRoundTrip(cmd);
      Ok(f)
    case Err(e) => Err(Encoding(e))
  }

  /** `[0x04, code & 0xff, (code >> 8) & 0xff]`. */
  function ScenePayload(code: int): seq<int> {
    [SceneOpcode, code % 256, SecondByte(code)]
  }

  /** The mode step, if any. `scenes` is the model's scene table. An unknown
      scene name is an error (the source compares the missing code with 0,
      which raises); a known negative code only skips the mode frame.
      `order` picks the kelvin byte order of a colour-temperature payload:
      `LowFirst` is the program as written, `HighFirst` the corrected layout. */
  function ModeStep(cmds: Cmds, scenes: map<string, int>, conv: TempConversion, order: KelvinOrder): (r: seq<Step>)
    ensures |r| <= 1
    ensures forall i :: 0 <= i < |r| && r[i].Ok? ==> WellFormed(r[i].value) && r[i].value[1] == ModeCommand
  {
    if cmds.scene.Some? then
      var name := cmds.scene.value;
      if name !in scenes then [Err(UnknownScene)]
      else if scenes[name] >= 0 then [Build(ModeCommand, ScenePayload(scenes[name]))]
      else []
    else if cmds.music.Some? then
      match MusicPayload(cmds)
      case Ok(p) => [Build(ModeCommand, p)]
      case Err(e) => [Err(e)]
    else if cmds.video.Some? then [Build(ModeCommand, VideoPayload(cmds))]
    else if cmds.color.Some? || cmds.temp.Some? then [Build(ModeCommand, ColorPayloadIn(order, cmds, conv))]
    else []
  }

  function BrightnessStep(cmds: Cmds): (r: seq<Step>)
    ensures |r| <= 1
    ensures forall i :: 0 <= i < |r| && r[i].Ok? ==> WellFormed(r[i].value) && r[i].value[1] == BrightnessCommand
  {
    if cmds.brightness.Some? then [Build(BrightnessCommand, [cmds.brightness.value])] else []
  }

  function PowerStep(cmds: Cmds): (r: seq<Step>)
    ensures |r| <= 1
    ensures forall i :: 0 <= i < |r| && r[i].Ok? ==> WellFormed(r[i].value) && r[i].value[1] == PowerCommand
  {
    if cmds.onOff.Some? then [Build(PowerCommand, [Flag(cmds.onOff.value)])] else []
  }

  /** Every step of the command, in sending order. Built frames carry
      strictly decreasing command ids (mode, brightness, power), so no kind
      of frame appears twice; every built frame is well formed. */
  function Plan(cmds: Cmds, scenes: map<string, int>, conv: TempConversion, order: KelvinOrder): (r: seq<Step>)
    ensures |r| <= 3
    ensures forall i :: 0 <= i < |r| && r[i].Ok? ==> WellFormed(r[i].value)
    ensures forall i, j :: 0 <= i < j < |r| && r[i].Ok? && r[j].Ok? ==>
      WellFormed(r[i].value) && WellFormed(r[j].value) && r[i].value[1] > r[j].value[1]
  {
    var m := ModeStep(cmds, scenes, conv, order);
    var b := BrightnessStep(cmds);
    var p := PowerStep(cmds);
    m + b + p
  }

  /** The plan holds a built frame with command id `id`. */
  predicate HasFrame(plan: seq<Step>, id: bv8) {
    exists i :: 0 <= i < |plan| && plan[i].Ok? && |plan[i].value| > 1 && plan[i].value[1] == id
  }

  /** Scene, music and video keys switch off every mode below them. */
  lemma ModePrecedence(cmds: Cmds, scenes: map<string, int>, conv: TempConversion, order: KelvinOrder)
    ensures cmds.scene.Some? ==>
      ModeStep(cmds, scenes, conv, order)
      == ModeStep(cmds.(music := None, video := None, color := None, temp := None, mask := None, extra := NoExtra),
                  scenes, conv, order)
    ensures cmds.scene.None? && cmds.music.Some? ==>
      ModeStep(cmds, scenes, conv, order) == ModeStep(cmds.(video := None, temp := None, mask := None), scenes, conv, order)
    ensures cmds.scene.None? && cmds.music.None? && cmds.video.Some? ==>
      ModeStep(cmds, scenes, conv, order) == ModeStep(cmds.(color := None, temp := None, mask := None), scenes, conv, order)
  {}

  /** The one mode step that carries `payload`: the frame when it encodes,
      an encoding error otherwise. */
  predicate CarriesPayload(r: seq<Step>, payload: seq<int>) {
    && |r| == 1
    && (r[0].Ok? <==> |payload| <= MaxPayload && AllBytes(payload))
    && (r[0].Ok? ==> Decode(r[0].value) == Some(Decoded(ModeCommand, ToBytes(payload) + Zeros(MaxPayload - |payload|))))
    && (r[0].Err? ==> r[0].error.Encoding?)
  }

  /** Without a scene, `music` decides the mode frame: it carries the music
      payload, or the run fails on an unknown effect name. */
  lemma MusicModeFrame(cmds: Cmds, scenes: map<string, int>, conv: TempConversion, order: KelvinOrder)
    requires cmds.scene.None? && cmds.music.Some?
    ensures MusicPayload(cmds).Err? ==> ModeStep(cmds, scenes, conv, order) == [Err(UnknownMusicMode)]
    ensures MusicPayload(cmds).Ok? ==> CarriesPayload(ModeStep(cmds, scenes, conv, order), MusicPayload(cmds).value)
  {
    if MusicPayload(cmds).Ok? {
      assert ModeStep(cmds, scenes, conv, order) == [Build(ModeCommand, MusicPayload(cmds).value)];
    }
  }

  /** Without a scene or music, `video` decides the mode frame, which carries the video payload. */
  lemma VideoModeFrame(cmds: Cmds, scenes: map<string, int>, conv: TempConversion, order: KelvinOrder)
    requires cmds.scene.None? && cmds.music.None? && cmds.video.Some?
    ensures CarriesPayload(ModeStep(cmds, scenes, conv, order), VideoPayload(cmds))
  {
    assert ModeStep(cmds, scenes, conv, order) == [Build(ModeCommand, VideoPayload(cmds))];
  }

  /** Without a scene, music or video, a colour or temperature gives a mode
      frame carrying the colour payload in the chosen kelvin order. */
  lemma ColorModeFrame(cmds: Cmds, scenes: map<string, int>, conv: TempConversion, order: KelvinOrder)
    requires cmds.scene.None? && cmds.music.None? && cmds.video.None?
    requires cmds.color.Some? || cmds.temp.Some?
    ensures order == LowFirst ==> CarriesPayload(ModeStep(cmds, scenes, conv, order), ColorPayloadAsWritten(cmds, conv))
    ensures order == HighFirst ==> CarriesPayload(ModeStep(cmds, scenes, conv, order), ColorPayload(cmds, conv))
  {
    assert ModeStep(cmds, scenes, conv, order) == [Build(ModeCommand, ColorPayloadIn(order, cmds, conv))];
  }

  /** With no mode key at all there is no mode step. */
  lemma NoModeKey(cmds: Cmds, scenes: map<string, int>, conv: TempConversion, order: KelvinOrder)
    requires cmds.scene.None? && cmds.music.None? && cmds.video.None? && cmds.color.None? && cmds.temp.None?
    ensures ModeStep(cmds, scenes, conv, order) == []
  {}

  /** The scene payload's bytes are the opcode and the code's two low bytes. */
  lemma SceneBytes(code: int)
    ensures AllBytes(ScenePayload(code))
    ensures ToBytes(ScenePayload(code)) == [SceneOpcode as bv8, LowByte(code), LowByte(code / 256)]
  {
    var p := ScenePayload(code);
    var bytes := ToBytes(p);
    ByteRoundTrip(code % 256);
    ByteRoundTrip(SecondByte(code));
    assert bytes[1] as int == LowByte(code) as int;
    assert bytes[2] as int == LowByte(code / 256) as int;
  }

  /** A known scene with a non-negative code yields one mode frame whose
      payload area is `[0x04, low byte, high byte]`, from which the code
      modulo 2^16 can be read back. */
  lemma SceneFrame(cmds: Cmds, scenes: map<string, int>, conv: TempConversion, order: KelvinOrder)
    requires cmds.scene.Some? && cmds.scene.value in scenes && scenes[cmds.scene.value] >= 0
    ensures |ModeStep(cmds, scenes, conv, order)| == 1 && ModeStep(cmds, scenes, conv, order)[0].Ok?
    ensures
      var code := scenes[cmds.scene.value];
      var f := ModeStep(cmds, scenes, conv, order)[0].value;
      && Decode(f) == Some(Decoded(ModeCommand, [SceneOpcode as bv8, LowByte(code), LowByte(code / 256)] + Zeros(14)))
      && f[3] as int + 256 * f[4] as int == code % 0x1_0000
  {
    var code := scenes[cmds.scene.value];
    var p := ScenePayload(code);
    SceneBytes(code);
    assert ModeStep(cmds, scenes, conv, order) == [Build(ModeCommand, p)];
    var f := Build(ModeCommand, p).value;
    var area := Decode(f).value.area;
    assert f[3] == area[1] && f[4] == area[2];
    assert area[1] == ToBytes(p)[1] && area[2] == ToBytes(p)[2];
    assert f[3] as int == code % 256 && f[4] as int == SecondByte(code);
    TwoBytesValue(code);
  }

  /** An unknown scene name fails before any frame is built. */
  lemma UnknownSceneFails(cmds: Cmds, scenes: map<string, int>, conv: TempConversion, order: KelvinOrder)
    requires cmds.scene.Some? && cmds.scene.value !in scenes
    ensures Plan(cmds, scenes, conv, order)[0] == Err(UnknownScene)
  {}

  /** A known scene with a negative code behaves as if no mode had been asked for. */
  lemma NegativeSceneSkipsMode(cmds: Cmds, scenes: map<string, int>, conv: TempConversion, order: KelvinOrder)
    requires cmds.scene.Some? && cmds.scene.value in scenes && scenes[cmds.scene.value] < 0
    ensures Plan(cmds, scenes, conv, order)
         == Plan(cmds.(scene := None, music := None, video := None, color := None, temp := None), scenes, conv, order)
    ensures !HasFrame(Plan(cmds, scenes, conv, order), ModeCommand)
  {
    assert Plan(cmds, scenes, conv, order) == BrightnessStep(cmds) + PowerStep(cmds);
  }

  /** Where the frame of each kind sits in a plan, by command id. */
  lemma PlanIds(cmds: Cmds, scenes: map<string, int>, conv: TempConversion, order: KelvinOrder, i: nat)
    requires
      var r := Plan(cmds, scenes, conv, order);
      i < |r| && r[i].Ok?
    ensures
      var m := ModeStep(cmds, scenes, conv, order);
      var b := BrightnessStep(cmds);
      var f := Plan(cmds, scenes, conv, order)[i].value;
      && (i < |m| ==> f[1] == ModeCommand)
      && (|m| <= i < |m| + |b| ==> f[1] == BrightnessCommand)
      && (|m| + |b| <= i ==> f[1] == PowerCommand)
  {
    var m := ModeStep(cmds, scenes, conv, order);
    var b := BrightnessStep(cmds);
    var p := PowerStep(cmds);
    var r := Plan(cmds, scenes, conv, order);
    if i < |m| {
      assert r[i] == m[i];
    } else if i < |m| + |b| {
      assert r[i] == b[i - |m|];
    } else {
      assert r[i] == p[i - |m| - |b|];
    }
  }

  /** The plan has a power frame exactly when `on_off` is given; it is the
      last step and carries 1 for on, 0 for off. */
  lemma PowerFrame(cmds: Cmds, scenes: map<string, int>, conv: TempConversion, order: KelvinOrder)
    ensures HasFrame(Plan(cmds, scenes, conv, order), PowerCommand) <==> cmds.onOff.Some?
    ensures cmds.onOff.Some? ==>
      var r := Plan(cmds, scenes, conv, order);
      && |r| > 0 && r[|r| - 1].Ok?
      && Decode(r[|r| - 1].value) == Some(Decoded(PowerCommand, [if cmds.onOff.value then 1 else 0] + Zeros(16)))
  {
    var r := Plan(cmds, scenes, conv, order);
    var m := ModeStep(cmds, scenes, conv, order);
    var b := BrightnessStep(cmds);
    if HasFrame(r, PowerCommand) {
      var i :| 0 <= i < |r| && r[i].Ok? && |r[i].value| > 1 && r[i].value[1] == PowerCommand;
      PlanIds(cmds, scenes, conv, order, i);
    }
    if cmds.onOff.Some? {
      var k := |r| - 1;
      assert r[k] == Build(PowerCommand, [Flag(cmds.onOff.value)]);
      assert ToBytes([Flag(cmds.onOff.value)]) == [if cmds.onOff.value then 1 else 0];
      assert r[k].Ok? && |r[k].value| > 1 && r[k].value[1] == PowerCommand;
    }
  }

  /** The plan has a brightness frame exactly when `brightness` is given as a
      byte; the frame carries that byte unscaled. */
  lemma BrightnessFrame(cmds: Cmds, scenes: map<string, int>, conv: TempConversion, order: KelvinOrder)
    ensures HasFrame(Plan(cmds, scenes, conv, order), BrightnessCommand)
        <==> cmds.brightness.Some? && IsByte(cmds.brightness.value)
    ensures cmds.brightness.Some? && IsByte(cmds.brightness.value) ==>
      exists i :: 0 <= i < |Plan(cmds, scenes, conv, order)| && Plan(cmds, scenes, conv, order)[i].Ok?
        && Decode(Plan(cmds, scenes, conv, order)[i].value)
           == Some(Decoded(BrightnessCommand, [cmds.brightness.value as bv8] + Zeros(16)))
  {
    var r := Plan(cmds, scenes, conv, order);
    var m := ModeStep(cmds, scenes, conv, order);
    if HasFrame(r, BrightnessCommand) {
      var i :| 0 <= i < |r| && r[i].Ok? && |r[i].value| > 1 && r[i].value[1] == BrightnessCommand;
      PlanIds(cmds, scenes, conv, order, i);
      assert r[i] == BrightnessStep(cmds)[i - |m|];
      var v := cmds.brightness.value;
      assert AllBytes([v]) && [v][0] == v;
    }
    if cmds.brightness.Some? && IsByte(cmds.brightness.value) {
      var k := |m|;
      assert r[k] == Build(BrightnessCommand, [cmds.brightness.value]);
      assert ToBytes([cmds.brightness.value]) == [cmds.brightness.value as bv8];
      assert r[k].Ok? && |r[k].value| > 1 && r[k].value[1] == BrightnessCommand;
    }
  }

  /** The plan has a mode frame exactly when the mode step built one; it is the first step. */
  lemma ModeFrame(cmds: Cmds, scenes: map<string, int>, conv: TempConversion, order: KelvinOrder)
    ensures HasFrame(Plan(cmds, scenes, conv, order), ModeCommand)
        <==> |ModeStep(cmds, scenes, conv, order)| == 1 && ModeStep(cmds, scenes, conv, order)[0].Ok?
  {
    var r := Plan(cmds, scenes, conv, order);
    var m := ModeStep(cmds, scenes, conv, order);
    if HasFrame(r, ModeCommand) {
      var i :| 0 <= i < |r| && r[i].Ok? && |r[i].value| > 1 && r[i].value[1] == ModeCommand;
      PlanIds(cmds, scenes, conv, order, i);
      assert r[i] == m[i];
    }
    if |m| == 1 && m[0].Ok? {
      assert r[0] == m[0];
    }
  }
}

=== FILE: executor.dfy ===
/** One run of the device coordinator's command execution: connect, subscribe
    to notifications, build and write each frame in order, disconnect, then
    record and publish whether everything succeeded. The wireless transport is
    abstract: `ok(n)` is whether the transport's n-th call succeeds. */
module Executor {
  import opened Wrappers
  import opened FrameCodec
  import opened Commands
  import opened Payloads
  import opened Dispatch

  /** What the client connects to: the device the host resolved, or the raw address. */
  datatype Handle = Device(id: string) | RawAddress(address: string)

  /** The coordinator's published data; `cmdSuccess` is absent until a command ran. */
  datatype DeviceData = DeviceData(name: string, address: string, model: string, cmdSuccess: Option<bool>)

  /** Transport calls, in the order they are made, and the final publication. */
  datatype Action =
    | Connect(handle: Handle)
    | Subscribe
    | Write(frame: Frame)
    | Disconnect
    | Publish(data: DeviceData)

  function HandleFor(address: string, resolved: Option<string>): Handle {
    match resolved
    case Some(d) => Device(d)
    case None => RawAddress(address)
  }

  predicate AllBuilt(plan: seq<Step>) {
    forall i :: 0 <= i < |plan| ==> plan[i].Ok?
  }

  /** Writes of the plan's frames, stopping at the first step that failed to build. */
  function Writes(plan: seq<Step>): (r: seq<Action>)
    ensures forall i :: 0 <= i < |r| ==> r[i].Write?
  {
    if |plan| == 0 || plan[0].Err? then [] else [Write(plan[0].value)] + Writes(plan[1..])
  }

  lemma {:induction false} WritesAppend(p: seq<Step>, q: seq<Step>)
    requires AllBuilt(p)
    ensures Writes(p + q) == Writes(p) + Writes(q)
    decreases |p|
  {
    if |p| == 0 {
      assert p + q == q;
    } else {
      assert (p + q)[1..] == p[1..] + q;
      WritesAppend(p[1..], q);
    }
  }

  lemma {:induction false} WritesLength(p: seq<Step>)
    requires AllBuilt(p)
    ensures |Writes(p)| == |p|
    decreases |p|
  {
    if |p| > 0 {
      WritesLength(p[1..]);
    }
  }

  /** The transport calls of a run in which every call succeeds: a build
      failure ends the run after the frames before it, without disconnecting. */
  function Script(h: Handle, plan: seq<Step>): (r: seq<Action>)
    ensures forall i :: 0 <= i < |r| ==> !r[i].Publish?
  {
    [Connect(h), Subscribe] + Writes(plan) + (if AllBuilt(plan) then [Disconnect] else [])
  }

  /** The calls made once the first `i` frames are written are a prefix of
      the script, and all of it when frame `i` fails to build. */
  lemma ScriptPrefix(h: Handle, plan: seq<Step>, i: nat)
    requires i <= |plan| && AllBuilt(plan[..i])
    ensures |Writes(plan[..i])| == i
    ensures [Connect(h), Subscribe] + Writes(plan[..i]) <= Script(h, plan)
    ensures i < |plan| && plan[i].Err? ==> [Connect(h), Subscribe] + Writes(plan[..i]) == Script(h, plan)
  {
    assert plan == plan[..i] + plan[i..];
    WritesAppend(plan[..i], plan[i..]);
    WritesLength(plan[..i]);
    if i < |plan| && plan[i].Err? {
      assert !AllBuilt(plan);
    }
  }

  /** Writing one more built frame extends the writes by that frame. */
  lemma WritesStep(plan: seq<Step>, i: nat)
    requires i < |plan| && AllBuilt(plan[..i]) && plan[i].Ok?
    ensures AllBuilt(plan[..i + 1])
    ensures Writes(plan[..i + 1]) == Writes(plan[..i]) + [Write(plan[i].value)]
  {
    assert plan[..i + 1] == plan[..i] + [plan[i]];
    WritesAppend(plan[..i], [plan[i]]);
  }

  /** Drive the transport through one plan: connect, subscribe, write each
      built frame, disconnect. The calls made are the script's calls up to
      the first failing one (or all of them); the run succeeds exactly when
      every frame builds and every call succeeds, disconnect included. */
  method SendPlan(h: Handle, plan: seq<Step>, ok: nat -> bool) returns (calls: seq<Action>, success: bool)
    ensures |calls| >= 1
    ensures calls <= Script(h, plan)
    ensures forall n :: 0 <= n < |calls| - 1 ==> ok(n)
    ensures |calls| < |Script(h, plan)| ==> !ok(|calls| - 1)
    ensures success <==> AllBuilt(plan) && forall n :: 0 <= n < |plan| + 3 ==> ok(n)
    ensures success ==> calls == Script(h, plan)
  {
    calls := [Connect(h)];
    success := false;
    if !ok(0) {
      return;
    }
    calls := calls + [Subscribe];
    if !ok(1) {
      return;
    }
    var i := 0;
    while i < |plan|
      invariant 0 <= i <= |plan|
      invariant AllBuilt(plan[..i])
      invariant forall n :: 0 <= n < 2 + i ==> ok(n)
      invariant calls == [Connect(h), Subscribe] + Writes(plan[..i])
    {
      if plan[i].Err? {
        // Building the frame raised: nothing more is sent, not even the disconnect.
        ScriptPrefix(h, plan, i);
        return;
      }
      WritesStep(plan, i);
      calls := calls + [Write(plan[i].value)];
      if !ok(2 + i) {
        // The write raised: nothing more is sent, not even the disconnect.
        ScriptPrefix(h, plan, i + 1);
        return;
      }
      i := i + 1;
    }
    assert plan[..i] == plan;
    ScriptPrefix(h, plan, i);
    calls := calls + [Disconnect];
    success := ok(2 + |plan|);
  }

  /** Execute one command against the transport outcomes `ok`, with
      `resolved` the host's lookup of the device address. With `order` set to
      `LowFirst` this is the program as written. Returns the actions taken,
      the success flag and the data published once, last. */
  method ExecCmds(data: DeviceData, cmds: Cmds, scenes: map<string, int>, conv: TempConversion, order: KelvinOrder,
                  resolved: Option<string>, ok: nat -> bool)
    returns (trace: seq<Action>, success: bool, published: DeviceData)
    ensures published == data.(cmdSuccess := Some(success))
    ensures |trace| >= 2 && trace[|trace| - 1] == Publish(published)
    ensures forall i :: 0 <= i < |trace| - 1 ==> !trace[i].Publish?
    ensures
      var calls := trace[..|trace| - 1];
      var script := Script(HandleFor(data.address, resolved), Plan(cmds, scenes, conv, order));
      && calls <= script
      && (forall n :: 0 <= n < |calls| - 1 ==> ok(n))
      && (|calls| < |script| ==> !ok(|calls| - 1))
    ensures
      var plan := Plan(cmds, scenes, conv, order);
      success <==> AllBuilt(plan) && forall n :: 0 <= n < |plan| + 3 ==> ok(n)
    ensures success ==>
      trace == Script(HandleFor(data.address, resolved), Plan(cmds, scenes, conv, order)) + [Publish(published)]
  {
    var h := HandleFor(data.address, resolved);
    var plan := Plan(cmds, scenes, conv, order);
    var calls;
    calls, success := SendPlan(h, plan, ok);
    published := data.(cmdSuccess := Some(success));
    trace := calls + [Publish(published)];
    assert trace[..|trace| - 1] == calls;
    assert forall i :: 0 <= i < |trace| - 1 ==> trace[i] == calls[i];
    assert forall i :: 0 <= i < |calls| ==> calls[i] == Script(h, plan)[i];
  }
}

=== FILE: frame_codec.dfy ===
/** The 20-byte command frame: magic byte, command id, a payload zero-padded
    to 17 bytes, and an XOR checksum over the 19 bytes before it. */
module FrameCodec {
  import opened Wrappers

  /** First byte of every frame. */
  const Magic: bv8 := 0x33
  /** Bytes in every frame. */
  const FrameSize: nat := 20
  /** Bytes before the checksum: magic, command id and the payload area. */
  const BodySize: nat := 19
  /** The longest payload a frame carries, and the size of its payload area. */
  const MaxPayload: nat := 17

  type Frame = seq<bv8>

  /** `ValueError` raised by the encoder: the length check, then `bytes(payload)`. */
  datatype EncodeError = PayloadTooLong | ByteOutOfRange

  predicate IsByte(x: int) {
    0 <= x < 256
  }

  predicate AllBytes(p: seq<int>) {
    forall i :: 0 <= i < |p| ==> IsByte(p[i])
  }

  /** Python's `x & 0xFF` on an unbounded integer (negative ones in two's
      complement): the residue of x modulo 256. */
  function LowByte(x: int): bv8 {
    (x % 256) as bv8
  }

  /** Python's `(x >> 8) & 0xff` on an unbounded integer. */
  function SecondByte(x: int): int {
    (x / 256) % 256
  }

  lemma ByteRoundTrip(x: int)
    requires IsByte(x)
    ensures (x as bv8) as int == x
  {
    assert x % 256 == x;
  }

  lemma BitVectorRoundTrip(b: bv8)
    ensures IsByte(b as int) && LowByte(b as int) == b
  {
    var x := b as int;
    assert x % 256 == x;
  }

  /** `bytes(p)` for a list whose elements are all in 0..255. */
  function ToBytes(p: seq<int>): (r: seq<bv8>)
    requires AllBytes(p)
    ensures |r| == |p|
    ensures forall i :: 0 <= i < |p| ==> r[i] as int == p[i]
  {
    var r := seq(|p|, i requires 0 <= i < |p| => p[i] as bv8);
    assert forall i :: 0 <= i < |p| ==> r[i] as int == p[i] by {
      forall i | 0 <= i < |p|
        ensures r[i] as int == p[i]
      {
        ByteRoundTrip(p[i]);
      }
    }
    r
  }

  /** The integers a byte string holds, as Python's iteration over `bytes` yields them. */
  function ToInts(s: seq<bv8>): (r: seq<int>)
    ensures |r| == |s| && AllBytes(r)
    ensures forall i :: 0 <= i < |s| ==> r[i] == s[i] as int
  {
    seq(|s|, i requires 0 <= i < |s| => s[i] as int)
  }

  function Zeros(n: nat): (r: seq<bv8>)
    ensures |r| == n
    ensures forall i :: 0 <= i < n ==> r[i] == 0
  {
    seq(n, _ => 0)
  }

  /** XOR of all bytes, folded left to right as the checksum loop does. */
  function XorAll(s: seq<bv8>): bv8 {
    if |s| == 0 then 0 else XorAll(s[..|s| - 1]) ^ s[|s| - 1]
  }

  lemma XorAllSnoc(s: seq<bv8>, b: bv8)
    ensures XorAll(s + [b]) == XorAll(s) ^ b
  {
    assert (s + [b])[..|s|] == s;
  }

  /** The checksum loop: XOR every byte of the body into an accumulator. */
  method Checksum(body: seq<bv8>) returns (c: bv8)
    ensures XorAll(body + [c]) == 0
    ensures forall d: bv8 :: XorAll(body + [d]) == 0 ==> d == c
  {
    c := 0;
    var i := 0;
    while i < |body|
      invariant 0 <= i <= |body|
      invariant c == XorAll(body[..i])
    {
      assert body[..i + 1] == body[..i] + [body[i]];
      XorAllSnoc(body[..i], body[i]);
      c := c ^ body[i];
      i := i + 1;
    }
    assert body[..|body|] == body;
    XorAllSnoc(body, c);
    forall d: bv8 | XorAll(body + [d]) == 0
      ensures d == c
    {
      XorAllSnoc(body, d);
    }
  }

  /** The body of a frame: magic, command id, payload, zero padding to 19 bytes. */
  function Body(cmd: int, payload: seq<int>): seq<bv8>
    requires |payload| <= MaxPayload && AllBytes(payload)
  {
    [Magic, LowByte(cmd)] + ToBytes(payload) + Zeros(MaxPayload - |payload|)
  }

  /** Encode command `cmd` with `payload` into one frame, or the error raised. */
  function Encode(cmd: int, payload: seq<int>): (r: Result<Frame, EncodeError>)
    ensures r.Ok? <==> |payload| <= MaxPayload && AllBytes(payload)
    ensures |payload| > MaxPayload ==> r == Err(PayloadTooLong)
    ensures r.Ok? ==>
      && |r.value| == FrameSize
      && r.value[0] == Magic
      && r.value[1] == LowByte(cmd)
      && (forall i :: 0 <= i < |payload| ==> r.value[2 + i] as int == payload[i])
      && (forall i :: 2 + |payload| <= i < BodySize ==> r.value[i] == 0)
      && r.value[BodySize] == XorAll(r.value[..BodySize])
  {
    if |payload| > MaxPayload then Err(PayloadTooLong)
    else if !AllBytes(payload) then Err(ByteOutOfRange)
    else
      var body := Body(cmd, payload);
      assert body[2..2 + |payload|] == ToBytes(payload);
      var frame := body + [XorAll(body)];
      assert frame[..BodySize] == body;
      Ok(frame)
  }

  /** Every encoded frame XORs to zero over all 20 bytes. */
  lemma EncodedFrameXorsToZero(cmd: int, payload: seq<int>)
    requires Encode(cmd, payload).Ok?
    ensures XorAll(Encode(cmd, payload).value) == 0
  {
    var f := Encode(cmd, payload).value;
    assert f == f[..BodySize] + [f[BodySize]];
    XorAllSnoc(f[..BodySize], f[BodySize]);
  }

  /** What a receiver reads from a frame: the command id and the 17-byte
      payload area, provided the magic byte and the checksum agree. */
  datatype Decoded = Decoded(cmd: bv8, area: seq<bv8>)

  predicate WellFormed(f: Frame) {
    |f| == FrameSize && f[0] == Magic && XorAll(f) == 0
  }

  function Decode(f: Frame): Option<Decoded> {
    if WellFormed(f) then Some(Decoded(f[1], f[2..BodySize])) else None
  }

  /** Decoding an encoded frame gives back the command id modulo 256 and the
      payload followed by its zero padding. */
  lemma DecodeEncode(cmd: int, payload: seq<int>)
    requires |payload| <= MaxPayload && AllBytes(payload)
    ensures Decode(Encode(cmd, payload).value)
         == Some(Decoded(LowByte(cmd), ToBytes(payload) + Zeros(MaxPayload - |payload|)))
  {
    var f := Encode(cmd, payload).value;
    EncodedFrameXorsToZero(cmd, payload);
    assert f[2..BodySize] == ToBytes(payload) + Zeros(MaxPayload - |payload|);
  }

  /** The first 19 bytes of a frame whose header, payload bytes and padding
      match are the body the encoder builds. */
  lemma BodyMatches(cmd: int, payload: seq<int>, f: Frame)
    requires |payload| <= MaxPayload && AllBytes(payload)
    requires |f| == FrameSize && f[0] == Magic && f[1] == LowByte(cmd)
    requires forall i :: 0 <= i < |payload| ==> f[2 + i] as int == payload[i]
    requires forall i :: 2 + |payload| <= i < BodySize ==> f[i] == 0
    ensures f[..BodySize] == Body(cmd, payload)
  {
    var body := Body(cmd, payload);
    var bytes := ToBytes(payload);
    forall i | 0 <= i < BodySize
      ensures f[i] == body[i]
    {
      if 2 <= i < 2 + |payload| {
        assert body[i] == bytes[i - 2];
        assert f[2 + (i - 2)] as int == payload[i - 2];
      }
    }
  }

  /** A frame is the encoding of a payload as soon as its header, payload
      bytes and padding match and its bytes XOR to zero: the checksum leaves
      no other choice for the last byte. */
  lemma EncodingIsDetermined(cmd: int, payload: seq<int>, f: Frame)
    requires |payload| <= MaxPayload && AllBytes(payload)
    requires |f| == FrameSize && f[0] == Magic && f[1] == LowByte(cmd)
    requires forall i :: 0 <= i < |payload| ==> f[2 + i] as int == payload[i]
    requires forall i :: 2 + |payload| <= i < BodySize ==> f[i] == 0
    requires XorAll(f) == 0
    ensures Encode(cmd, payload) == Ok(f)
  {
    var body := Body(cmd, payload);
    BodyMatches(cmd, payload, f);
    assert f == f[..BodySize] + [f[BodySize]];
    XorAllSnoc(body, f[BodySize]);
    var c := f[BodySize];
    assert XorAll(body) ^ c == 0;
    assert c == XorAll(body);
    assert f == body + [XorAll(body)];
  }

  /** Conversely, every well-formed frame is the encoding of what it decodes to. */
  lemma EncodeDecode(f: Frame)
    requires Decode(f).Some?
    ensures Encode(Decode(f).value.cmd as int, ToInts(Decode(f).value.area)) == Ok(f)
  {
    BitVectorRoundTrip(f[1]);
    EncodingIsDetermined(f[1] as int, ToInts(f[2..BodySize]), f);
  }

  lemma XorPrefixSteps(f: Frame)
    requires |f| == FrameSize
    ensures forall k | 1 <= k <= FrameSize :: XorAll(f[..k]) == XorAll(f[..k - 1]) ^ f[k - 1]
  {
    forall k | 1 <= k <= FrameSize
      ensures XorAll(f[..k]) == XorAll(f[..k - 1]) ^ f[k - 1]
    {
      assert f[..k][..k - 1] == f[..k - 1];
    }
  }

  /** The XOR of a 20-byte frame, spelled out byte by byte. */
  lemma XorOfTwenty(f: Frame)
    requires |f| == FrameSize
    ensures XorAll(f) == f[0] ^ f[1] ^ f[2] ^ f[3] ^ f[4] ^ f[5] ^ f[6] ^ f[7] ^ f[8] ^ f[9]
                       ^ f[10] ^ f[11] ^ f[12] ^ f[13] ^ f[14] ^ f[15] ^ f[16] ^ f[17] ^ f[18] ^ f[19]
  {
    XorPrefixSteps(f);
  }
}

=== FILE: payloads.dfy ===
/** The payloads of the mode frame: static colour or colour temperature,
    music-reactive mode and video-sync mode. Payloads are lists of integers,
    as in the source; the frame encoder rejects values outside 0..255. */
module Payloads {
  import opened Wrappers
  import opened Commands
  import FrameCodec
  import SegmentMask

  /** Why a list of frames could not be built. */
  datatype BuildError =
    | UnknownScene                          // the scene lookup found nothing
    | UnknownMusicMode                      // no mode byte for the music name
    | Encoding(reason: FrameCodec.EncodeError)

  const ColorOpcode := 0x15
  const MusicOpcode := 0x13
  /** Sensitivity when `extra` has none. */
  const DefaultSensitivity := 100
  /** Per-zone video brightness unless exactly four values are given. */
  const DefaultZones: seq<int> := [100, 100, 100, 100]

  function Flag(b: bool): int {
    if b then 1 else 0
  }

  function RgbBytes(c: Rgb): seq<int> {
    [c.r, c.g, c.b]
  }

  lemma TwoBytesValue(x: int)
    ensures x % 256 + 256 * FrameCodec.SecondByte(x) == x % 0x1_0000
  {
    var a := x / 256;
    assert x == 256 * a + x % 256;
    assert a == 256 * (a / 256) + a % 256;
    assert x == 0x1_0000 * (a / 256) + (256 * (a % 256) + x % 256);
  }

  // ----- static colour and colour temperature -----

  function KelvinOf(cmds: Cmds, conv: TempConversion): int
    requires cmds.temp.Some?
  {
    conv.miredToKelvin(cmds.temp.value)
  }

  /** The 13-byte colour layout; `bigEndian` chooses the order of the two kelvin bytes. */
  function ColorLayout(cmds: Cmds, conv: TempConversion, bigEndian: bool): seq<int>
    requires cmds.color.Some? || cmds.temp.Some?
  {
    var middle :=
      if cmds.temp.Some? then
        var k := KelvinOf(cmds, conv);
        var kelvinBytes := if bigEndian then [FrameCodec.SecondByte(k), k % 256] else [k % 256, FrameCodec.SecondByte(k)];
        [0, 0, 0] + kelvinBytes + RgbBytes(conv.kelvinToRgb(k))
      else
        RgbBytes(cmds.color.value) + [0, 0, 0, 0, 0];
    [ColorOpcode, 0x01] + middle + SegmentMask.MaskBytes(cmds.mask)
  }

  /** The colour payload exactly as the source builds it: kelvin low byte first. */
  function ColorPayloadAsWritten(cmds: Cmds, conv: TempConversion): (r: seq<int>)
    requires cmds.color.Some? || cmds.temp.Some?
    ensures |r| == 13 && r[0] == ColorOpcode && r[1] == 0x01
    ensures r[10..] == SegmentMask.MaskBytes(cmds.mask)
    ensures cmds.temp.Some? ==>
      var k := KelvinOf(cmds, conv);
      && r[2..5] == [0, 0, 0]
      && 0 <= r[5] < 256 && 0 <= r[6] < 256
      && r[5] + 256 * r[6] == k % 0x1_0000
      && r[7..10] == RgbBytes(conv.kelvinToRgb(k))
    ensures cmds.temp.None? ==> r[2..10] == RgbBytes(cmds.color.value) + [0, 0, 0, 0, 0]
  {
    var r := ColorLayout(cmds, conv, false);
    if cmds.temp.Some? then TwoBytesValue(KelvinOf(cmds, conv)); r else r
  }

  /** The colour payload with the kelvin high byte first, the order the
      captured frames show; the dispatch uses it when `order` is `HighFirst`. */
  function ColorPayload(cmds: Cmds, conv: TempConversion): (r: seq<int>)
    requires cmds.color.Some? || cmds.temp.Some?
    ensures |r| == 13 && r[0] == ColorOpcode && r[1] == 0x01
    ensures r[10..] == SegmentMask.MaskBytes(cmds.mask)
    ensures cmds.temp.Some? ==>
      var k := KelvinOf(cmds, conv);
      && r[2..5] == [0, 0, 0]
      && 0 <= r[5] < 256 && 0 <= r[6] < 256
      && 256 * r[5] + r[6] == k % 0x1_0000
      && r[7..10] == RgbBytes(conv.kelvinToRgb(k))
    ensures cmds.temp.None? ==> r[2..10] == RgbBytes(cmds.color.value) + [0, 0, 0, 0, 0]
  {
    var r := ColorLayout(cmds, conv, true);
    if cmds.temp.Some? then TwoBytesValue(KelvinOf(cmds, conv)); r else r
  }

  /** Which byte of the kelvin goes first: `LowFirst` as the source writes
      it, `HighFirst` as the captured frames show. */
  datatype KelvinOrder = LowFirst | HighFirst

  /** The colour payload in the given kelvin byte order. */
  function ColorPayloadIn(order: KelvinOrder, cmds: Cmds, conv: TempConversion): (r: seq<int>)
    requires cmds.color.Some? || cmds.temp.Some?
    ensures order == LowFirst ==> r == ColorPayloadAsWritten(cmds, conv)
    ensures order == HighFirst ==> r == ColorPayload(cmds, conv)
  {
    match order
    case LowFirst => ColorPayloadAsWritten(cmds, conv)
    case HighFirst => ColorPayload(cmds, conv)
  }

  /** Without a colour temperature the byte order makes no difference. */
  lemma OrderIrrelevantWithoutTemp(cmds: Cmds, conv: TempConversion)
    requires cmds.color.Some? && cmds.temp.None?
    ensures ColorPayloadAsWritten(cmds, conv) == ColorPayload(cmds, conv)
  {
    var a := ColorPayloadAsWritten(cmds, conv);
    var b := ColorPayload(cmds, conv);
    assert a == a[..2] + a[2..10] + a[10..];
    assert b == b[..2] + b[2..10] + b[10..];
  }

  /** A colour temperature makes the static colour irrelevant. */
  lemma TempOverridesColor(cmds: Cmds, conv: TempConversion, other: Option<Rgb>)
    requires cmds.temp.Some?
    ensures ColorPayload(cmds, conv) == ColorPayload(cmds.(color := other), conv)
    ensures ColorPayloadAsWritten(cmds, conv) == ColorPayloadAsWritten(cmds.(color := other), conv)
  {}

  /** The two layouts differ exactly when the kelvin's two bytes differ. */
  lemma KelvinOrderMatters(cmds: Cmds, conv: TempConversion)
    requires cmds.temp.Some?
    ensures ColorPayload(cmds, conv) == ColorPayloadAsWritten(cmds, conv)
        <==> KelvinOf(cmds, conv) % 256 == FrameCodec.SecondByte(KelvinOf(cmds, conv))
  {
    var k := KelvinOf(cmds, conv);
    var a := ColorPayload(cmds, conv);
    var b := ColorPayloadAsWritten(cmds, conv);
    if a == b {
      assert a[5] == b[5];
    }
  }

  // ----- music mode -----

  /** Music effect names and their mode bytes ("rhytm" is spelled as the service spells it). */
  const MusicModes: map<string, int> :=
    map["rhytm" := 0x03, "energetic" := 0x05, "spectrum" := 0x04, "rolling" := 0x06]

  /** Distinct effects get distinct mode bytes, and the mode bytes are 3 to 6. */
  lemma MusicModesDistinct()
    ensures forall a, b :: a in MusicModes && b in MusicModes && a != b ==> MusicModes[a] != MusicModes[b]
    ensures MusicModes.Values == {3, 4, 5, 6}
  {
    assert MusicModes["rhytm"] == 3 && MusicModes["spectrum"] == 4;
    assert MusicModes["energetic"] == 5 && MusicModes["rolling"] == 6;
  }

  /** `calm` unless `extra.mode` names something else. */
  predicate IsCalm(extra: Extra) {
    extra.mode.GetOr("calm") == "calm"
  }

  /** The music payload, or `UnknownMusicMode` when the name has no mode byte
      (the source's list then holds `None`, which `bytes()` rejects). */
  function MusicPayload(cmds: Cmds): (r: Result<seq<int>, BuildError>)
    requires cmds.music.Some?
    ensures r.Ok? <==> cmds.music.value in MusicModes
    ensures r.Err? ==> r.error == UnknownMusicMode
    ensures r.Ok? ==>
      && |r.value| == (if cmds.color.Some? then 8 else 4)
      && r.value[..4] == [MusicOpcode, MusicModes[cmds.music.value],
                          cmds.extra.sensivity.GetOr(DefaultSensitivity), Flag(IsCalm(cmds.extra))]
      && (cmds.color.Some? ==> r.value[4..] == [0x01] + RgbBytes(cmds.color.value))
  {
    var name := cmds.music.value;
    if name !in MusicModes then Err(UnknownMusicMode)
    else
      var head := [MusicOpcode, MusicModes[name], cmds.extra.sensivity.GetOr(DefaultSensitivity),
                   Flag(IsCalm(cmds.extra))];
      Ok(if cmds.color.Some? then head + [0x01] + RgbBytes(cmds.color.value) else head)
  }

  /** Without `extra`, music runs at sensitivity 100 in calm mode. */
  lemma MusicDefaults(cmds: Cmds)
    requires cmds.music.Some? && cmds.music.value in MusicModes && cmds.extra == NoExtra
    ensures MusicPayload(cmds).value[2] == DefaultSensitivity
    ensures MusicPayload(cmds).value[3] == 1
  {}

  /** The calm byte is 0 exactly when `extra.mode` names something other than "calm". */
  lemma MusicCalmFlag(cmds: Cmds)
    requires cmds.music.Some? && cmds.music.value in MusicModes
    ensures MusicPayload(cmds).value[3] == 0 <==> cmds.extra.mode.Some? && cmds.extra.mode.value != "calm"
  {}

  // ----- video mode -----

  /** The per-zone brightness: the given list when it has exactly four entries. */
  function Zones(extra: Extra): (r: seq<int>)
    ensures |r| == 4
    ensures extra.tvBrightness.Some? && |extra.tvBrightness.value| == 4 ==> r == extra.tvBrightness.value
    ensures !(extra.tvBrightness.Some? && |extra.tvBrightness.value| == 4) ==> r == DefaultZones
  {
    var bri := extra.tvBrightness.GetOr([]);
    if |bri| != 4 then DefaultZones else bri
  }

  function VideoPayload(cmds: Cmds): (r: seq<int>)
    requires cmds.video.Some?
    ensures |r| == 11
    ensures r[0] == 0 && r[3] == 0 && r[6] == 0
    ensures r[1] == Flag(cmds.video.value == "all")
    ensures r[2] == Flag(cmds.extra.mode == Some("game"))
    ensures r[4] == Flag(cmds.extra.soundEffect == Some(true))
    ensures r[5] == cmds.extra.sensivity.GetOr(DefaultSensitivity)
    ensures r[7..] == Zones(cmds.extra)
  {
    var extra := cmds.extra;
    [0x00, Flag(cmds.video.value == "all"), Flag(extra.mode == Some("game")), 0x00,
     Flag(extra.soundEffect == Some(true))]
    + [extra.sensivity.GetOr(DefaultSensitivity), 0x00]
    + Zones(extra)
  }

  /** Without `extra`: region as named, no game mode, no sound, sensitivity
      100 and every zone at 100. */
  lemma VideoDefaults(cmds: Cmds)
    requires cmds.video.Some? && cmds.extra == NoExtra
    ensures VideoPayload(cmds) == [0, Flag(cmds.video.value == "all"), 0, 0, 0, 100, 0, 100, 100, 100, 100]
  {}

  /** A zone list of any length other than four is ignored. */
  lemma ZonesNeedExactlyFour(extra: Extra)
    requires extra.tvBrightness.Some? && |extra.tvBrightness.value| != 4
    ensures Zones(extra) == Zones(extra.(tvBrightness := None))
  {}

  /** Every mode payload fits the 17-byte payload area of a frame. */
  lemma ModePayloadsFit(cmds: Cmds, conv: TempConversion)
    ensures cmds.color.Some? || cmds.temp.Some? ==> |ColorPayloadAsWritten(cmds, conv)| <= FrameCodec.MaxPayload
    ensures cmds.color.Some? || cmds.temp.Some? ==> |ColorPayload(cmds, conv)| <= FrameCodec.MaxPayload
    ensures cmds.music.Some? && MusicPayload(cmds).Ok? ==> |MusicPayload(cmds).value| <= FrameCodec.MaxPayload
    ensures cmds.video.Some? ==> |VideoPayload(cmds)| <= FrameCodec.MaxPayload
  {}
}

=== FILE: segment_mask.dfy ===
/** The segment mask of a colour command: a string with one character per
    light segment, packed into a 24-bit value sent as three little-endian bytes. */
module SegmentMask {
  import opened Wrappers
  import FrameCodec

  /** Segments a mask can address: the three mask bytes hold 24 bits. */
  const Span: nat := 24
  const SpanValues: nat := 0x100_0000

  /** Characters that switch a segment on; every other character switches it off. */
  predicate IsOnChar(c: char) {
    c == '1' || c == 'x' || c == 'X' || c == '+' || c == '#'
  }

  function BitOf(c: char): nat {
    if IsOnChar(c) then 1 else 0
  }

  /** The accumulator after scanning `s` left to right with `val = (val << 1) | bit`.
      For a non-negative `val` and a bit of 0 or 1 that update is `2 * val + bit`. */
  function ScanValue(s: string): nat {
    if |s| == 0 then 0 else 2 * ScanValue(s[..|s| - 1]) + BitOf(s[|s| - 1])
  }

  function Pow2(n: nat): nat {
    if n == 0 then 1 else 2 * Pow2(n - 1)
  }

  lemma MulTwice(x: nat, p: nat)
    ensures x * (2 * p) == 2 * (x * p)
  {}

  lemma {:induction false} Pow2Add(a: nat, b: nat)
    ensures Pow2(a + b) == Pow2(a) * Pow2(b)
    decreases b
  {
    if b > 0 {
      Pow2Add(a, b - 1);
      assert Pow2(a + b) == 2 * Pow2(a + (b - 1));
      MulTwice(Pow2(a), Pow2(b - 1));
    }
  }

  lemma Pow2Span()
    ensures Pow2(Span) == SpanValues
  {
    assert Pow2(1) == 2 && Pow2(2) == 4 && Pow2(3) == 8;
    Pow2Add(3, 3);
    Pow2Add(6, 6);
    Pow2Add(12, 12);
  }

  /** Bit `i` of `x`, counting from the least significant bit. */
  function BitAt(x: nat, i: nat): nat {
    if i == 0 then x % 2 else BitAt(x / 2, i - 1)
  }

  lemma {:induction false} ZeroHasNoBits(i: nat)
    ensures BitAt(0, i) == 0
  {
    if i > 0 {
      ZeroHasNoBits(i - 1);
    }
  }

  /** Bit `i` of the scanned value is the `i`-th character counted from the
      right end of the mask; there are no bits beyond the mask's length. */
  lemma {:induction false} ScanBits(s: string, i: nat)
    ensures BitAt(ScanValue(s), i) == if i < |s| then BitOf(s[|s| - 1 - i]) else 0
    decreases |s|
  {
    if |s| == 0 {
      ZeroHasNoBits(i);
    } else {
      var init := s[..|s| - 1];
      var v := ScanValue(s);
      assert v == 2 * ScanValue(init) + BitOf(s[|s| - 1]);
      if i > 0 {
        assert v / 2 == ScanValue(init);
        ScanBits(init, i - 1);
        if i - 1 < |init| {
          assert init[|init| - 1 - (i - 1)] == s[|s| - 1 - i];
        }
      }
    }
  }

  lemma {:induction false} ScanBound(s: string)
    ensures ScanValue(s) < Pow2(|s|)
    decreases |s|
  {
    if |s| > 0 {
      ScanBound(s[..|s| - 1]);
    }
  }

  /** Scanning a concatenation shifts the first part's value left by the
      length of the second. */
  lemma {:induction false} ScanAppend(a: string, b: string)
    ensures ScanValue(a + b) == ScanValue(a) * Pow2(|b|) + ScanValue(b)
    decreases |b|
  {
    if |b| == 0 {
      assert a + b == a;
    } else {
      var init := b[..|b| - 1];
      var bit := BitOf(b[|b| - 1]);
      assert (a + b)[..|a + b| - 1] == a + init;
      assert (a + b)[|a + b| - 1] == b[|b| - 1];
      assert ScanValue(a + b) == 2 * ScanValue(a + init) + bit;
      ScanAppend(a, init);
      MulTwice(ScanValue(a), Pow2(|init|));
    }
  }

  /** The scan loop of the mask packer. The result is the number whose binary
      digits are the mask's on/off characters, the last character lowest. */
  method PackMask(mask: string) returns (v: nat)
    ensures v < Pow2(|mask|)
    ensures forall i :: 0 <= i < |mask| ==> BitAt(v, i) == BitOf(mask[|mask| - 1 - i])
  {
    v := 0;
    var k := 0;
    while k < |mask|
      invariant 0 <= k <= |mask|
      invariant v == ScanValue(mask[..k])
    {
      assert mask[..k + 1][..k] == mask[..k];
      v := 2 * v + BitOf(mask[k]);
      k := k + 1;
    }
    assert mask[..|mask|] == mask;
    ScanBound(mask);
    forall i | 0 <= i < |mask|
      ensures BitAt(v, i) == BitOf(mask[|mask| - 1 - i])
    {
      ScanBits(mask, i);
    }
  }

  /** The three bytes `[v & 0xff, (v >> 8) & 0xff, (v >> 16) & 0xff]` of a non-negative `v`. */
  function LowBytes(v: nat): seq<int> {
    [v % 256, FrameCodec.SecondByte(v), FrameCodec.SecondByte(v / 256)]
  }

  /** Division by a power of 256 of `d * q + m`: the quotient gains `q` and the remainder is `m`'s. */
  lemma Shift(d: nat, q: nat, m: nat)
    requires d == 256 || d == 0x1_0000 || d == SpanValues
    ensures (d * q + m) / d == q + m / d
    ensures (d * q + m) % d == m % d
  {
    var p := m / d;
    assert m == d * p + m % d;
    assert d * q + m == d * (q + p) + m % d;
  }

  /** The three low bytes, read back little-endian, are `v` modulo 2^24. */
  lemma LowBytesValue(v: nat)
    ensures LowBytes(v)[0] + 256 * LowBytes(v)[1] + 0x1_0000 * LowBytes(v)[2] == v % SpanValues
  {
    var a := v / 256;
    var b := a / 256;
    var c := b / 256;
    assert v == 256 * a + v % 256;
    assert a == 256 * b + a % 256;
    assert b == 256 * c + b % 256;
    var low := 0x1_0000 * (b % 256) + 256 * (a % 256) + v % 256;
    assert v == 0x1_0000 * b + (256 * (a % 256) + v % 256);
    Shift(0x1_0000, b, 256 * (a % 256) + v % 256);
    assert v / 0x1_0000 == b;
    assert v == SpanValues * c + low;
    Shift(SpanValues, c, low);
  }

  /** Bits above the 24th never reach the three bytes. */
  lemma LowBytesIgnoreHigh(q: nat, m: nat)
    requires m < SpanValues
    ensures LowBytes(q * SpanValues + m) == LowBytes(m)
  {
    var v := q * SpanValues + m;
    assert v == 256 * (0x1_0000 * q) + m;
    Shift(256, 0x1_0000 * q, m);
    assert v / 256 == 256 * (256 * q) + m / 256;
    Shift(256, 256 * q, m / 256);
    Shift(256, q, m / 256 / 256);
  }

  /** The mask bytes of a colour command: all segments when no mask is given,
      otherwise the low 24 bits of the scanned mask, least significant byte first. */
  function MaskBytes(mask: Option<string>): (r: seq<int>)
    ensures |r| == 3
    ensures forall i :: 0 <= i < 3 ==> 0 <= r[i] < 256
    ensures mask.None? ==> r == [0xFF, 0xFF, 0xFF]
    ensures mask.Some? ==> r[0] + 256 * r[1] + 0x1_0000 * r[2] == ScanValue(mask.value) % SpanValues
  {
    match mask
    case None => [0xFF, 0xFF, 0xFF]
    case Some(s) =>
      LowBytesValue(ScanValue(s));
      LowBytes(ScanValue(s))
  }

  /** No mask selects every segment, while an empty mask string selects none. */
  lemma AbsentAndEmptyMasks()
    ensures MaskBytes(None) == [0xFF, 0xFF, 0xFF]
    ensures MaskBytes(Some("")) == [0, 0, 0]
  {}

  /** Only the last 24 characters of a mask can affect its bytes. */
  lemma LastSegmentsDecide(s: string)
    requires |s| > Span
    ensures MaskBytes(Some(s)) == MaskBytes(Some(s[|s| - Span..]))
  {
    var a := s[..|s| - Span];
    var b := s[|s| - Span..];
    assert s == a + b;
    ScanAppend(a, b);
    ScanBound(b);
    Pow2Span();
    LowBytesIgnoreHigh(ScanValue(a), ScanValue(b));
  }

  /** The worked example: "1100" packs to 12. */
  lemma MaskExample()
    ensures MaskBytes(Some("1100")) == [12, 0, 0]
  {
    assert ScanValue("1100") == 12 by {
      assert "1100"[..3] == "110";
      assert "110"[..2] == "11";
      assert "11"[..1] == "1";
      assert "1"[..0] == "";
    }
  }
}

=== FILE: wrappers.dfy ===
/** Optional values and success/failure results, standing in for Python's
    `None`/`dict.get` and for the exceptions the command path raises. */
module Wrappers {

  /** A value that may be absent, as a key missing from a Python dict. */
  datatype Option<+T> = None | Some(value: T) {

    /** `d.get(key, default)`: the value when present, otherwise `default`. */
    function GetOr(default: T): T {
      match this
      case Some(v) => v
      case None => default
    }
  }

  /** Either a computed value or the error that a raised exception carries. */
  datatype Result<+T, +E> = Ok(value: T) | Err(error: E)
}
